=== FILE: README.md ===
# HostelHUB front end — a Dafny model of its state rules

HostelHUB is a React client for a hostel-complaint workflow: students file maintenance
complaints, workers claim and complete them, and a login page routes each user to a
dashboard by role. The client has no algorithm of its own. What it does have is a set of
small rules inside its event handlers. This project lifts them out as pure functions over
immutable data and proves what they promise:

- how the `api` fetch wrapper builds a request and classifies the response
  (`Api`, `api.dfy`);
- the student dashboard's create / edit / delete handlers, the list updates they make and
  the "only pending complaints can be changed" rule (`StudentDashboard`);
- the worker dashboard's three derived views and the claim rule for the status PATCH
  (`WorkerDashboard`);
- the login page's id-field naming, credential form, request body and role routing (`Login`).

Shared pieces: `Common` (option and outcome types), `Seqs` (order-preserving filter and
subsequence), `Text` (JavaScript `trim`), `Session` (the stored user), `Complaints` (the
complaint record, replace-by-id and remove-by-id).

Each handler is one atomic step. A `...Call` function gives the request the handler
issues, or `None` when it issues none. A transition function maps the page state and the
call's settled `Outcome` (`Ok(value)` or `Err(message)`) to the next state. The signed-in
user, the confirmation dialog's answer, the network exchange and `JSON.parse` are all
parameters. Statuses, roles and categories are strings compared with `==`, as in the
source. A falsy `assigned_worker_id` is `None` or `Some("")`.

Edge cases in the code that are easy to miss:

- A failed response whose body is the JSON literal `null` throws a `TypeError` when
  `data.message` is read. It does not throw "API error" (`Api.Settle`, `NullBody`).
- A truthy non-string `message` becomes `String(message)`, for example `"42"`.
- `createComplaint` without a signed-in user throws inside its `try` while building the
  body. So no request goes out, and the error line reads "Failed to submit complaint".
- `updateStatus` claiming a complaint without a signed-in user throws before its `try`.
  So no request goes out and nothing changes.
- With no user, `user?.id` is `undefined`. So in-progress or completed complaints with
  no `assigned_worker_id` satisfy `=== user?.id` (`WorkerDashboard.Me`). The model reads
  a JSON `null` and a missing field both as absent, so it compares worker ids by plain
  equality of optional values.
- A successful update or delete does not clear an earlier error line. A successful login
  does not clear an earlier message.
- The `{ role, ...cred }` spread lets a credential named `role` win over the selected
  role. The `Login.IdFieldIsOwnKey` lemma shows the page's own inputs never use that name.

## Model

| member | source | states |
|---|---|---|
| Api.Request | src/api.js:1-10 | The URL is the base followed by the path. Caller headers replace the default Content-Type object rather than merging into it. Method and body pass through. |
| Api.CallerHeadersReplaceDefaults | src/api.js:5-10 | A caller header map without Content-Type yields a request without Content-Type. Without caller headers, Content-Type is present. |
| Api.Settle | src/api.js:12-25 | A body that fails to parse gives the not-JSON error whatever the status. An ok response returns the parsed value unchanged. A non-ok response always throws, and a non-ok `null` body throws the null-access TypeError, never "API error". The server-message error only arises from a non-ok, parsed, non-null body. A fetch rejection passes through. |
| Api.NotJsonWhateverStatus | src/api.js:14-19 | An unparseable body gives exactly "Backend returned HTML instead of JSON", and flipping the ok flag changes nothing. |
| Api.RejectedMessage | src/api.js:21-23 | For a non-ok, parsed, non-null body, a truthy `message` member gives `String(message)`, so a non-empty string gives itself. A missing or falsy member gives exactly "API error". A body that is not an object always gives "API error". |
| Api.FalsyValues | src/api.js:22 | The `||` treats exactly null, false, 0 and the empty string as falsy. |
| Api.MessageMember | src/api.js:22 | `data.message` exists exactly on an object body that has the member, and it is that member's value. |
| Api.AsOutcome | src/pages/Login.js:34-35 | What a page's `catch (err)` sees: a value reply is passed through, and a thrown error is read as `err.message`. |
| Api.Message | src/api.js:18-22 | The thrown error's `message`: the fixed not-JSON text, the server or default text, the null-body TypeError text, or the transport's own text. |
| Api.GenericMessageNeedsJson | src/api.js:12-23 | A non-ok response can only produce "API error" if its body parsed: the parse check comes first. |
| Api.ToJsString | src/api.js:22 | `String(v)` of the message value: a string is itself. A number prints as a canonical decimal numeral with no leading zero that reads back to the number. `null`, `true` and `false` print as their names, and an object prints as `[object Object]`. |
| Api.IntToString | src/api.js:22 | `String(n)` of an integer: a minus sign exactly for negatives, then a canonical decimal numeral of the magnitude. |
| Api.JoinElements | src/api.js:22 | `String(array)`: an empty array prints as "", a one-element array as that element. A longer array prints as its first element, one comma, then the rest joined the same way, so a `null` element prints as nothing wherever it stands. |
| Api.Decimal | src/api.js:22 | `String(n)` of a natural number: at least one decimal digit, and no leading zero. |
| Api.DecimalRoundTrip | src/api.js:22 | Reading back the printed decimal numeral of a natural number gives the number. |
| Seqs.Filter | src/pages/WorkerDashboard.js:52-62 | `Array.filter`: every kept element satisfies the predicate and comes from the input, and every satisfying input element is kept. |
| Seqs.FilterIsSubsequence | src/pages/WorkerDashboard.js:52-62 | A filter result is a subsequence of its input, so relative order is kept. |
| Seqs.FilterCounts | src/pages/StudentDashboard.js:112 | A filter keeps each satisfying element exactly as often as it occurs and drops every other. |
| Seqs.FilterAllKept | src/pages/StudentDashboard.js:112 | A filter whose predicate holds throughout returns its input. |
| Text.TrimStart | src/pages/StudentDashboard.js:54 | The result is a suffix of the input. Everything dropped is ECMAScript white space. The result does not start with white space. |
| Text.TrimEnd | src/pages/StudentDashboard.js:54 | The result is a prefix of the input. Everything dropped is white space. The result does not end with white space. |
| Text.Trim | src/pages/StudentDashboard.js:54 | `s.trim()` is a contiguous piece of `s` with only white space before and after it, and it neither starts nor ends with white space. |
| Text.TrimmedIsPadded | src/pages/StudentDashboard.js:54 | Trimming the front and then the back drops only white space around a middle that neither starts nor ends with white space. |
| Text.BlankIffAllWhitespace | src/pages/StudentDashboard.js:54 | `IsBlank`, the model of `!s.trim()`, holds exactly when every character of `s` is white space. |
| Complaints.Unassigned | src/pages/WorkerDashboard.js:53 | `!c.assigned_worker_id`: the worker id is absent or a falsy string. |
| Complaints.Loaded | src/pages/StudentDashboard.js:26-31 | `Array.isArray(data) ? data : []`, with a failure also giving `[]`: an array reply is the list, anything else is empty. |
| Complaints.ReplaceById | src/pages/StudentDashboard.js:98-100 | The length is kept. Every entry with the record's id becomes the record, and every other entry is unchanged in place. |
| Complaints.ReplaceKeepsIds | src/pages/WorkerDashboard.js:44-46 | Replacing by id keeps the list's id sequence: nothing is added, dropped or moved. |
| Complaints.ReplaceIdempotent | src/pages/WorkerDashboard.js:44-46 | Applying the same server record twice equals applying it once. |
| Complaints.ReplaceAbsentIsIdentity | src/pages/StudentDashboard.js:98-100 | A record whose id is not in the list leaves the list unchanged. |
| Complaints.RemoveById | src/pages/StudentDashboard.js:112 | No entry with the id remains. Every other entry is still present. Nothing new appears. |
| Complaints.RemoveKeepsOthersInOrder | src/pages/StudentDashboard.js:112 | The result is a subsequence of the old list and keeps each other entry as often as before. |
| Complaints.RemoveAbsentIsIdentity | src/pages/StudentDashboard.js:112 | Removing an id the list does not hold changes nothing. |
| StudentDashboard.LoadCall | src/pages/StudentDashboard.js:23-27 | Without a user no request is made. Otherwise the request is a GET of the student's own list path. |
| StudentDashboard.Load | src/pages/StudentDashboard.js:23-33 | Without a user nothing changes. An array reply becomes the list. A non-array reply or a failure empties it. Form, edit mode and error are kept. |
| StudentDashboard.OnChange | src/pages/StudentDashboard.js:45-48 | Only the named form field takes the new value. |
| StudentDashboard.LoadForgetsOldList | src/pages/StudentDashboard.js:23-33 | With a user, the list after a load depends only on the reply, so reloading with the same reply changes nothing. |
| StudentDashboard.CreateCall | src/pages/StudentDashboard.js:50-67 | A request is made exactly when the description is not blank and a user is signed in. It is a POST of student_id, description, category and image, with no caller headers, so the default JSON Content-Type applies. |
| StudentDashboard.Create | src/pages/StudentDashboard.js:50-74 | A blank description only sets "Description is required". A failure only sets "Failed to submit complaint". On success the server record is the head, the old list is the tail, the form is reset and the error is cleared. |
| StudentDashboard.BlankCreateRejected | src/pages/StudentDashboard.js:54-56 | An all-white-space description issues no request, keeps the list and sets "Description is required". |
| StudentDashboard.StartEdit | src/pages/StudentDashboard.js:76-84 | Edit mode holds the complaint. Description and category are copied verbatim, and a missing image becomes the empty string. |
| StudentDashboard.WritesSendJson | src/pages/StudentDashboard.js:59-67 | Both the create and the update request go out with `Content-Type: application/json`, taken from the defaults in src/api.js. |
| StudentDashboard.UpdateCall | src/pages/StudentDashboard.js:86-96 | A request is made exactly when a complaint is being edited. It is a PUT of the form's three fields to that complaint's URL, with no caller headers. |
| StudentDashboard.EditRoundTrip | src/pages/StudentDashboard.js:76-96 | Starting an edit and submitting unchanged sends the entry's own fields back to its own URL. |
| StudentDashboard.Update | src/pages/StudentDashboard.js:86-106 | A failure only sets "Failed to update complaint". On success the length is kept, entries with the returned id are replaced and all others are unchanged. Edit mode ends, the form resets and the error line is not cleared. |
| StudentDashboard.UpdateKeepsIds | src/pages/StudentDashboard.js:98-100 | A successful update keeps the list's id sequence. |
| StudentDashboard.DeleteCall | src/pages/StudentDashboard.js:108-111 | A request is made exactly when the user confirmed. It is a DELETE of the complaint's URL. |
| StudentDashboard.Delete | src/pages/StudentDashboard.js:108-116 | A declined confirmation changes nothing. A failure only sets "Failed to delete complaint". On success no entry with the id remains, every other entry stays and nothing new appears. |
| StudentDashboard.DeleteKeepsOthersInOrder | src/pages/StudentDashboard.js:112 | After a delete the other entries keep their relative order and multiplicity. |
| StudentDashboard.CancelEdit | src/pages/StudentDashboard.js:118-121 | Edit mode ends and the form is the default. The list and error are kept. |
| StudentDashboard.ActionableInOrder | src/pages/StudentDashboard.js:179-199 | The buttons follow list order, once per occurrence of each pending entry. |
| StudentDashboard.FormResets | src/pages/StudentDashboard.js:70-120 | A successful create, a successful update and a cancel each leave the default form `{'', 'plumbing', ''}`. |
| StudentDashboard.Actionable | src/pages/StudentDashboard.js:179-199 | Edit and Delete are offered for exactly the pending complaints of the list. |
| WorkerDashboard.LoadCall | src/pages/WorkerDashboard.js:16-20 | Without a user no request is made. Otherwise the request is a GET of the unscoped all-complaints path. |
| WorkerDashboard.Load | src/pages/WorkerDashboard.js:16-26 | Without a user nothing changes. An array reply becomes the list. A non-array reply or a failure empties it. |
| WorkerDashboard.LoadForgetsOldList | src/pages/WorkerDashboard.js:19-23 | With a user, the list after a load depends only on the reply, so reloading with the same reply changes nothing. |
| WorkerDashboard.Me | src/pages/WorkerDashboard.js:57 | `user?.id`: absent exactly without a user, and otherwise the user's id. |
| WorkerDashboard.Available | src/pages/WorkerDashboard.js:52-54 | Exactly the accepted, unassigned entries of the list. |
| WorkerDashboard.MyInProgress | src/pages/WorkerDashboard.js:56-58 | Exactly the in-progress entries whose assigned worker equals `user?.id`, with null and a missing field both read as absent. |
| WorkerDashboard.MyCompleted | src/pages/WorkerDashboard.js:60-62 | Exactly the completed entries whose assigned worker equals `user?.id`, with null and a missing field both read as absent. |
| WorkerDashboard.ViewsAreExactSubsequences | src/pages/WorkerDashboard.js:52-62 | Each view is an order-preserving subsequence of the list. It holds each qualifying entry as often as the list does, and no other entry. |
| WorkerDashboard.ViewsDisjoint | src/pages/WorkerDashboard.js:52-62 | No complaint appears in two of the three views. |
| WorkerDashboard.OthersWorkExcluded | src/pages/WorkerDashboard.js:56-62 | A complaint assigned to another worker is in neither of the signed-in worker's views. |
| WorkerDashboard.Find | src/pages/WorkerDashboard.js:33 | `find` returns nothing exactly when no entry has the id. Otherwise it returns an entry of the list carrying the id. |
| WorkerDashboard.FindIsFirst | src/pages/WorkerDashboard.js:33 | `find` returns the first entry carrying the id. |
| WorkerDashboard.ClaimsIff | src/pages/WorkerDashboard.js:31-34 | A change claims exactly when it moves to in-progress and either no entry has the id or the first entry with the id is unassigned. |
| WorkerDashboard.StatusBody | src/pages/WorkerDashboard.js:28-36 | No body exactly when claiming without a user. The body always carries the status and at most the worker id besides. A worker id in the body is the signed-in user's. |
| WorkerDashboard.StatusCall | src/pages/WorkerDashboard.js:38-42 | The request is a PATCH of that body to the complaint's status URL, issued exactly when the body exists, with no caller headers. |
| WorkerDashboard.StatusSendsJson | src/pages/WorkerDashboard.js:38-42 | Every status request goes out with `Content-Type: application/json`, taken from the defaults in src/api.js. |
| WorkerDashboard.UpdateStatus | src/pages/WorkerDashboard.js:28-50 | A failure, or a claim without a user, changes nothing. On success the length is kept, entries with the returned id are replaced and all others are unchanged. |
| WorkerDashboard.AssignOnlyOnClaim | src/pages/WorkerDashboard.js:31-36 | With a user, the body has a worker id exactly when the target status is in-progress and the found complaint is missing or unassigned. The id is the user's. |
| WorkerDashboard.CompleteNeverAssigns | src/pages/WorkerDashboard.js:31-36 | A transition to completed sends the status alone. |
| WorkerDashboard.ExistingAssignmentKept | src/pages/WorkerDashboard.js:31-36 | When the first entry with the id already has a worker, the body is the status alone, so the assignment is never overwritten. |
| WorkerDashboard.ClaimAvailable | src/pages/WorkerDashboard.js:31-36 | Taking an available job sends in-progress together with the worker's own id. |
| Login.IdFieldName | src/pages/Login.js:61-67 | student gives `student_id`, warden gives `warden_id`, and any other role gives `worker_id`. |
| Login.IdFieldIsOwnKey | src/pages/Login.js:22-25 | The id input's name is never `password` or `role`. Exactly the non-student, non-warden roles share the worker's field. |
| Login.FirstRenderIsStudent | src/pages/Login.js:8-9 | On first render the id input is `student_id`, and an untouched form sends only `role: "student"`. |
| Login.SelectRole | src/pages/Login.js:46-48 | Changing role keeps the credentials typed so far. |
| Login.OnChange | src/pages/Login.js:13-15 | Only the named credential key is set, and all other keys keep their values. |
| Login.RoleSwitchKeepsCredentials | src/pages/Login.js:13-15 | Credentials typed under an earlier role survive a role switch and are sent along with the new role's. |
| Login.RequestBody | src/pages/Login.js:22-25 | The body holds `role` and every credential key. Credentials keep their values, and `role` is the selected role unless a credential overrides it. |
| Login.SubmitCall | src/pages/Login.js:20-26 | Login is a POST to `/api/auth/login` with that body and no caller headers. |
| Login.Destination | src/pages/Login.js:30-32 | Exactly student, warden and worker are routed, each to `/` followed by the role. Any other role goes nowhere. |
| Login.Submit | src/pages/Login.js:17-37 | On success the user is stored first, then there is at most one navigation, to the role's page, and the form is kept. On failure the message is the error's message, with no store and no navigation. |
| Login.StoreBeforeNavigate | src/pages/Login.js:28-32 | Every navigation comes after the user has been stored. |
| Login.RefusedLoginShowsServerMessage | src/pages/Login.js:34-36 | A refused login with body `{"message":"invalid credentials"}` shows exactly that text, with no store and no navigation. |

## Left out

- `src/pages/Register.js`: its handlers repeat the key-merge `onChange` modelled for Login and show a fixed message. The rest is role-dependent markup and a timer-driven redirect.
- Network transport, `fetch` and `process.env` base-URL selection: the base URL and what the network delivered are parameters.
- `JSON.parse` is an opaque partial function parameter. `JSON.stringify` is not modelled: request bodies are the object before it is stringified, and every value in them is a string.
- Decoding JSON replies into complaint and user records is not modelled. Pages receive typed outcomes, so a reply with missing or mistyped fields is outside the model. An example is a login reply without `user`, which in the source stores `undefined` before failing.
- The `NullBody` message is V8's TypeError wording, "Cannot read properties of null (reading 'message')". Other engines word it differently, for example Firefox and Safari, and a failed login would display that other text.
- WorkerDashboard.MyInProgress: JSON `null` and a missing `assigned_worker_id` are both `None`. With no signed-in user, an in-progress complaint whose `assigned_worker_id` is `null` is in this view in the model, but `null === undefined` is false in the source, so the source leaves it out.
- WorkerDashboard.MyCompleted: the same `null`/missing merge applies to completed complaints.
- JSON numbers are integers, and `String` of a number never uses exponent form. `null` and `undefined` are both `None` in record fields.
- Image upload through `FileReader` (src/pages/StudentDashboard.js:35-43): the image is an opaque string in the form.
- The `loading` flags, JSX rendering, CSS, `window.scrollTo` and `window.confirm`. Confirmation is a boolean parameter.
- React hook scheduling and async interleaving. Each handler is one atomic transition, so a functional `setComplaints(prev => …)` applies to the state the step starts from.
- `utils/auth` is not part of this model. `getAuth` is an `Option<User>` parameter, and `setAuth` is the `StoreUser` effect of a login.
- An unhandled rejection from `updateStatus` (a claim without a user) is modelled only as "no request, no change". Its console report is not modelled.

=== FILE: api.dfy ===
/**
 * The fetch wrapper `api(path, options)`: how the request is put together and what the
 * awaited call settles to. The transport itself and `JSON.parse` are inputs: the exchange
 * is given as what the network delivered, and parsing as an opaque partial function.
 */
module Api {
  import opened Common

  /** A parsed JSON value. Numbers are limited to integers. */
  datatype Json =
    | JNull
    | JBool(b: bool)
    | JNumber(n: int)
    | JString(s: string)
    | JArray(items: seq<Json>)
    | JObject(fields: map<string, Json>)

  /** The only header the wrapper sets itself. */
  const DefaultHeaders: map<string, string> := map["Content-Type" := "application/json"]

  /** The message of the error thrown when the body is not JSON, whatever the status. */
  const NotJsonMessage := "Backend returned HTML instead of JSON"

  /** The message used when a failed response carries no usable `message` member. */
  const GenericMessage := "API error"

  /** What V8 reports for `data.message` when the body parsed to `null`; other engines word it differently. */
  const NullBodyMessage := "Cannot read properties of null (reading 'message')"

  /** The request methods the pages use. */
  datatype HttpMethod = Get | Post | Put | Patch | Delete

  /** The caller's `options` object; request bodies are the object before `JSON.stringify`. */
  datatype Options = Options(verb: Option<HttpMethod>, headers: Option<map<string, string>>, body: Option<map<string, string>>)

  /** Options that set nothing, the wrapper's default `{}`. */
  const NoOptions := Options(None, None, None)

  /** One call a page makes: `api(path, options)`. */
  datatype Call = Call(path: string, options: Options)

  /** The arguments handed to `fetch`. */
  datatype FetchRequest = FetchRequest(url: string, verb: Option<HttpMethod>, headers: map<string, string>, body: Option<map<string, string>>)

  /** What the network delivered for one request. */
  datatype Exchange =
    | Answered(ok: bool, text: string)   // a response arrived: its `ok` flag and full body text
    | FetchFailed(message: string)       // `fetch` itself rejected

  /** The errors the wrapper can throw. */
  datatype ApiError =
    | NotJson                            // the body did not parse
    | Rejected(message: string)          // a non-ok status with a parsed, non-null body
    | NullBody                           // a non-ok status whose body is the JSON literal null
    | Transport(message: string)         // passed through from `fetch`

  /** What `await api(...)` settles to. */
  datatype Reply = Value(data: Json) | Thrown(error: ApiError)

  /**
   * The request `fetch` receives: the URL is the base followed by the path, and the
   * caller's options are spread over the defaults, so a caller's `headers` object
   * replaces the default one outright instead of being merged into it.
   */
  function Request(base: string, path: string, options: Options): (r: FetchRequest)
    ensures |r.url| == |base| + |path| && r.url[..|base|] == base && r.url[|base|..] == path
    ensures options.headers.Some? ==> r.headers == options.headers.value
    ensures options.headers.None? ==> r.headers == DefaultHeaders
    ensures r.verb == options.verb && r.body == options.body
  {
    FetchRequest(base + path, options.verb, options.headers.GetOr(DefaultHeaders), options.body)
  }

  /** JavaScript truthiness of a JSON value. */
  predicate Truthy(v: Json) {
    match v
    case JNull => false
    case JBool(b) => b
    case JNumber(n) => n != 0
    case JString(s) => s != ""
    case JArray(_) => true
    case JObject(_) => true
  }

  /** `data.message` of a non-null value: present only on an object that has that member. */
  function MessageMember(data: Json): (r: Option<Json>)
    ensures r.Some? <==> data.JObject? && "message" in data.fields
    ensures r.Some? ==> r.value == data.fields["message"]
  {
    if data.JObject? && "message" in data.fields then Some(data.fields["message"]) else None
  }

  /** The decimal digit for `d`. */
  function DigitChar(d: nat): (c: char)
    requires d < 10
    ensures '0' <= c <= '9' && c as int - '0' as int == d
  {
    "0123456789"[d]
  }

  /** The decimal numeral JavaScript prints for a non-negative integer. */
  function Decimal(n: nat): (r: string)
    ensures |r| >= 1
    ensures forall i :: 0 <= i < |r| ==> '0' <= r[i] <= '9'
    ensures |r| > 1 ==> r[0] != '0'
    decreases n
  {
    if n < 10 then [DigitChar(n)] else Decimal(n / 10) + [DigitChar(n % 10)]
  }

  /** The value of a string of decimal digits, the inverse of `Decimal`. */
  function DecimalValue(s: string): nat
    requires forall i :: 0 <= i < |s| ==> '0' <= s[i] <= '9'
    decreases |s|
  {
    if s == [] then 0 else DecimalValue(s[..|s| - 1]) * 10 + (s[|s| - 1] as int - '0' as int)
  }

  /** Printing a number in decimal loses nothing: reading the numeral back gives the number. */
  lemma {:induction false} DecimalRoundTrip(n: nat)
    ensures DecimalValue(Decimal(n)) == n
    decreases n
  {
    if n >= 10 {
      DecimalRoundTrip(n / 10);
      var d := Decimal(n);
      assert d[..|d| - 1] == Decimal(n / 10);
    }
  }

  /** `String(n)` of an integer: an optional minus sign and the decimal numeral of its magnitude. */
  function IntToString(n: int): (r: string)
    ensures n >= 0 ==> (forall i :: 0 <= i < |r| ==> '0' <= r[i] <= '9') && DecimalValue(r) == n
    ensures n < 0 ==> |r| > 1 && r[0] == '-' && (forall i :: 1 <= i < |r| ==> '0' <= r[i] <= '9') && DecimalValue(r[1..]) == -n
    ensures n >= 0 && |r| > 1 ==> r[0] != '0'
    ensures n < 0 && |r| > 2 ==> r[1] != '0'
  {
    var digits := Decimal(if n < 0 then -n else n);
    DecimalRoundTrip(if n < 0 then -n else n);
    if n < 0 then assert ("-" + digits)[1..] == digits; "-" + digits else digits
  }

  /** `String(v)`, which `new Error(v)` applies to a message that is not a string. */
  function ToJsString(v: Json): (r: string)
    ensures v.JString? ==> r == v.s
    ensures v.JNumber? && v.n >= 0 ==> (forall i :: 0 <= i < |r| ==> '0' <= r[i] <= '9') && DecimalValue(r) == v.n
    ensures v.JNumber? && v.n < 0 ==> |r| > 1 && r[0] == '-' && (forall i :: 1 <= i < |r| ==> '0' <= r[i] <= '9') && DecimalValue(r[1..]) == -v.n
    // numerals are canonical: no leading zero, so 42 prints as "42" and never as "042"
    ensures v.JNumber? && v.n >= 0 && |r| > 1 ==> r[0] != '0'
    ensures v.JNumber? && v.n < 0 && |r| > 2 ==> r[1] != '0'
    ensures v == JNull ==> r == "null"
    ensures v == JBool(true) ==> r == "true"
    ensures v == JBool(false) ==> r == "false"
    ensures v.JObject? ==> r == "[object Object]"
    decreases v
  {
    match v
    case JNull => "null"
    case JBool(b) => if b then "true" else "false"
    case JNumber(n) => IntToString(n)
    case JString(s) => s
    case JArray(items) => JoinElements(items)
    case JObject(_) => "[object Object]"
  }

  /** `Array.prototype.join(",")`: elements printed with `String`, `null` elements as the empty string. */
  function JoinElements(items: seq<Json>): (r: string)
    ensures items == [] ==> r == ""
    // one element prints as itself, except null, which prints as nothing
    ensures |items| == 1 ==> r == (if items[0].JNull? then "" else ToJsString(items[0]))
    // a leading null contributes nothing before the first separator
    ensures |items| > 1 && items[0].JNull? ==> |r| > 0 && r[0] == ','
    // the first element's text, one comma, then the rest joined the same way
    ensures |items| > 1 ==>
              var h := if items[0].JNull? then "" else ToJsString(items[0]);
              |r| > |h| && r[..|h|] == h && r[|h|] == ',' && r[|h| + 1..] == JoinElements(items[1..])
    ensures |r| >= |items| - 1
    decreases items
  {
    if items == [] then ""
    else
      var head := if items[0].JNull? then "" else ToJsString(items[0]);
      if |items| == 1 then head else head + "," + JoinElements(items[1..])
  }

  /** What `await api(...)` settles to, given the exchange and the JSON parser. */
  function Settle(exchange: Exchange, parse: string -> Option<Json>): (r: Reply)
    // the parse failure wins over the status: a non-JSON body is always the same error
    ensures exchange.Answered? && parse(exchange.text).None? ==> r == Thrown(NotJson)
    // a successful status hands back the parsed value untouched
    ensures exchange.Answered? && exchange.ok && parse(exchange.text).Some? ==> r == Value(parse(exchange.text).value)
    // a failed status never yields a value
    ensures exchange.Answered? && !exchange.ok ==> r.Thrown?
    ensures exchange.FetchFailed? ==> r == Thrown(Transport(exchange.message))
    // reading `message` off a null body throws the TypeError, never "API error"
    ensures exchange.Answered? && !exchange.ok && parse(exchange.text) == Some(JNull) ==> r == Thrown(NullBody)
    ensures r.Thrown? && r.error.Rejected? ==>
              exchange.Answered? && !exchange.ok && parse(exchange.text).Some? && parse(exchange.text).value != JNull
  {
    match exchange
    case FetchFailed(m) => Thrown(Transport(m))
    case Answered(ok, text) =>
      match parse(text)
      case None => Thrown(NotJson)
      case Some(data) =>
        if ok then Value(data)
        else if data == JNull then Thrown(NullBody)
        else
          var member := MessageMember(data);
          Thrown(Rejected(if member.Some? && Truthy(member.value) then ToJsString(member.value) else GenericMessage))
  }

  /** The `message` property of a thrown error. */
  function Message(e: ApiError): (r: string)
    ensures e.NotJson? ==> r == NotJsonMessage
    ensures e.NullBody? ==> r == NullBodyMessage
    ensures e.Rejected? || e.Transport? ==> r == e.message
  {
    match e
    case NotJson => NotJsonMessage
    case Rejected(m) => m
    case NullBody => NullBodyMessage
    case Transport(m) => m
  }

  /** A reply as the pages consume it: the value, or the thrown error's message. */
  function AsOutcome(r: Reply): (o: Outcome<Json>)
    ensures o.Ok? <==> r.Value?
    ensures r.Value? ==> o.value == r.data
    ensures r.Thrown? ==> o.message == Message(r.error)
  {
    match r
    case Value(d) => Ok(d)
    case Thrown(e) => Err(Message(e))
  }

  /** A non-JSON body gives the fixed "returned HTML" message whatever the HTTP status. */
  lemma NotJsonWhateverStatus(ok: bool, text: string, parse: string -> Option<Json>)
    requires parse(text).None?
    ensures AsOutcome(Settle(Answered(ok, text), parse)) == Err(NotJsonMessage)
    ensures Settle(Answered(ok, text), parse) == Settle(Answered(!ok, text), parse)
  {
  }

  /**
   * For a failed status with a parsed, non-null body, the message is `String(message)` of
   * the body's `message` member when that member is truthy, and exactly "API error" when it
   * is missing or falsy. Bodies that are not objects (strings, numbers, arrays, booleans)
   * have no `message` member, so they always give "API error".
   */
  lemma RejectedMessage(text: string, parse: string -> Option<Json>)
    requires parse(text).Some? && parse(text).value != JNull
    ensures var m := MessageMember(parse(text).value);
            var r := AsOutcome(Settle(Answered(false, text), parse));
            && (m.Some? && Truthy(m.value) ==> r == Err(ToJsString(m.value)))
            && (m.Some? && m.value.JString? && m.value.s != "" ==> r == Err(m.value.s))
            && (m.None? || !Truthy(m.value) ==> r == Err(GenericMessage))
            && (!parse(text).value.JObject? ==> r == Err(GenericMessage))
  {
  }

  /** JavaScript's falsy JSON values are exactly null, false, 0 and the empty string. */
  lemma FalsyValues(v: Json)
    ensures !Truthy(v) <==> v == JNull || v == JBool(false) || v == JNumber(0) || v == JString("")
  {
  }

  /** With a failed status, "API error" can only come from a body that parsed. */
  lemma GenericMessageNeedsJson(text: string, parse: string -> Option<Json>)
    requires Settle(Answered(false, text), parse) == Thrown(Rejected(GenericMessage))
    ensures parse(text).Some?
  {
  }

  /** Caller headers are not merged: a caller who sends its own headers loses the JSON content type. */
  lemma CallerHeadersReplaceDefaults(base: string, path: string, verb: Option<HttpMethod>, headers: map<string, string>, body: Option<map<string, string>>)
    requires "Content-Type" !in headers
    ensures "Content-Type" !in Request(base, path, Options(verb, Some(headers), body)).headers
    ensures "Content-Type" in Request(base, path, Options(verb, None, body)).headers
  {
  }
}

=== FILE: common.dfy ===
/** Small wrapper types shared by every page of the client. */
module Common {

  /** A value that may be absent: JavaScript's `undefined`/`null` on one side, a value on the other. */
  datatype Option<T> = None | Some(value: T) {

    /**
     * The wrapped value, or `default` when there is none: JavaScript's `x || default` when
     * `x` can only be absent or truthy. For a string `x`, `||` also replaces `""`, which
     * agrees with `GetOr` only when the default is itself `""`.
     */
    function GetOr(default: T): T {
      match this
      case Some(v) => v
      case None => default
    }
  }

  /**
   * How one awaited backend call ends as a page handler sees it: either the parsed
   * value, or a thrown error of which the handler can only read the message.
   */
  datatype Outcome<T> = Ok(value: T) | Err(message: string)
}

=== FILE: complaints.dfy ===
/** The complaint record and the list updates both dashboards apply after a successful call. */
module Complaints {
  import opened Common
  import Seqs
  import Api

  type Id = string

  /** The statuses the client compares against; the backend may send any other text. */
  const Pending := "pending"
  const Accepted := "accepted"
  const InProgress := "in-progress"
  const Completed := "completed"

  /** The complaint fields the client reads. */
  datatype Complaint = Complaint(
    id: Id,
    status: string,
    assignedWorkerId: Option<Id>,
    description: string,
    category: string,
    image: Option<string>)

  /** `!c.assigned_worker_id`: no worker, or the empty string. */
  function Unassigned(c: Complaint): (r: bool)
    ensures r <==> c.assignedWorkerId.None? || !Api.Truthy(Api.JString(c.assignedWorkerId.value))
  {
    c.assignedWorkerId.None? || c.assignedWorkerId.value == ""
  }

  /** The body of a listing request: an array of complaints, or some other JSON value. */
  datatype Listing = ComplaintArray(items: seq<Complaint>) | NotAnArray

  /** The ids of a list, in order. */
  function Ids(cs: seq<Complaint>): (r: seq<Id>)
    ensures |r| == |cs| && forall i :: 0 <= i < |cs| ==> r[i] == cs[i].id
  {
    seq(|cs|, i requires 0 <= i < |cs| => cs[i].id)
  }

  /** `list.map(x => x.id === rec.id ? rec : x)`: every entry sharing the record's id becomes the record. */
  function ReplaceById(cs: seq<Complaint>, rec: Complaint): (r: seq<Complaint>)
    ensures |r| == |cs|
    ensures forall i :: 0 <= i < |cs| && cs[i].id == rec.id ==> r[i] == rec
    ensures forall i :: 0 <= i < |cs| && cs[i].id != rec.id ==> r[i] == cs[i]
    decreases |cs|
  {
    if cs == [] then []
    else [if cs[0].id == rec.id then rec else cs[0]] + ReplaceById(cs[1..], rec)
  }

  /** Replacing keeps the list's ids in the same order: nothing is added, dropped or moved. */
  lemma ReplaceKeepsIds(cs: seq<Complaint>, rec: Complaint)
    ensures Ids(ReplaceById(cs, rec)) == Ids(cs)
  {
  }

  /** Applying the same server record twice changes nothing more than applying it once. */
  lemma ReplaceIdempotent(cs: seq<Complaint>, rec: Complaint)
    ensures ReplaceById(ReplaceById(cs, rec), rec) == ReplaceById(cs, rec)
  {
  }

  /** A record whose id is not in the list leaves the list as it was. */
  lemma ReplaceAbsentIsIdentity(cs: seq<Complaint>, rec: Complaint)
    requires rec.id !in Ids(cs)
    ensures ReplaceById(cs, rec) == cs
  {
  }

  /** `list.filter(c => c.id !== id)`. */
  function RemoveById(cs: seq<Complaint>, id: Id): (r: seq<Complaint>)
    ensures id !in Ids(r)
    ensures forall i :: 0 <= i < |r| ==> r[i] in cs
    ensures forall i :: 0 <= i < |cs| && cs[i].id != id ==> cs[i] in r
  {
    Seqs.Filter((c: Complaint) => c.id != id, cs)
  }

  /**
   * Removing by id keeps every other entry, as often as it occurred, in its original
   * relative order, and drops every entry carrying that id.
   */
  lemma RemoveKeepsOthersInOrder(cs: seq<Complaint>, id: Id)
    ensures Seqs.IsSubsequence(RemoveById(cs, id), cs)
    ensures forall c :: multiset(RemoveById(cs, id))[c] == (if c.id == id then 0 else multiset(cs)[c])
  {
    Seqs.FilterIsSubsequence((c: Complaint) => c.id != id, cs);
    Seqs.FilterCounts((c: Complaint) => c.id != id, cs);
  }

  /** Removing an id the list does not hold leaves the list as it was. */
  lemma RemoveAbsentIsIdentity(cs: seq<Complaint>, id: Id)
    requires id !in Ids(cs)
    ensures RemoveById(cs, id) == cs
  {
    forall i | 0 <= i < |cs| ensures cs[i].id != id {
      assert Ids(cs)[i] == cs[i].id;
    }
    Seqs.FilterAllKept((c: Complaint) => c.id != id, cs);
  }

  /** The list a load leaves behind: the array on success, and the empty list for anything else. */
  function Loaded(reply: Outcome<Listing>): (r: seq<Complaint>)
    ensures reply.Ok? && reply.value.ComplaintArray? ==> r == reply.value.items
    ensures reply.Err? || reply.value.NotAnArray? ==> r == []
  {
    if reply.Ok? && reply.value.ComplaintArray? then reply.value.items else []
  }
}

=== FILE: login.dfy ===
/**
 * The login page: role selection, the credential form, and what a submit does with the
 * reply: store the user and route by role, or show the error's message.
 */
module Login {
  import opened Common
  import opened Session
  import Api

  /** The page state: the selected role, the credential inputs typed so far, and the message line. */
  datatype State = State(role: string, cred: map<string, string>, msg: string)

  /** The page on first render: the student role, no credentials, no message. */
  const Initial := State(Student, map[], "")

  /** The observable effects of a submit, in the order they happen. */
  datatype Effect = StoreUser(user: User) | Navigate(path: string)

  /** A page state together with the effects that produced it. */
  datatype Step = Step(state: State, effects: seq<Effect>)

  /** The `name` of the id input for the selected role; anything that is not student or warden gets the worker's. */
  function IdFieldName(role: string): (r: string)
    ensures role == Student ==> r == "student_id"
    ensures role == Warden ==> r == "warden_id"
    ensures role != Student && role != Warden ==> r == "worker_id"
  {
    if role == Student then "student_id" else if role == Warden then "warden_id" else "worker_id"
  }

  /** The id input never shares its name with the password input or the `role` member of the request. */
  lemma IdFieldIsOwnKey(role: string)
    ensures IdFieldName(role) != "password" && IdFieldName(role) != "role"
    ensures IdFieldName(role) == IdFieldName(Worker) <==> role != Student && role != Warden
  {
  }

  /** On first render the id input is the student's, and an untouched form logs in as a student. */
  lemma FirstRenderIsStudent()
    ensures IdFieldName(Initial.role) == "student_id"
    ensures RequestBody(Initial) == map["role" := Student]
  {
  }

  /** The role selector's change handler: only the role changes. */
  function SelectRole(s: State, role: string): (r: State)
    ensures r.role == role && r.cred == s.cred && r.msg == s.msg
  {
    s.(role := role)
  }

  /** `onChange`: the named credential takes the value and every other one is kept. */
  function OnChange(s: State, name: string, value: string): (r: State)
    ensures r.cred.Keys == s.cred.Keys + {name}
    ensures r.cred[name] == value
    ensures forall k :: k in s.cred && k != name ==> r.cred[k] == s.cred[k]
    ensures r.role == s.role && r.msg == s.msg
  {
    s.(cred := s.cred[name := value])
  }

  /** `{ role, ...cred }`: the role, then every credential, a credential named `role` winning. */
  function RequestBody(s: State): (r: map<string, string>)
    ensures r.Keys == s.cred.Keys + {"role"}
    ensures "role" !in s.cred ==> r["role"] == s.role
    ensures forall k :: k in s.cred ==> r[k] == s.cred[k]
  {
    map["role" := s.role] + s.cred
  }

  /** The request `onSubmit` makes. */
  function SubmitCall(s: State): (r: Api.Call)
    ensures r.path == "/api/auth/login" && r.options.verb == Some(Api.Post) && r.options.headers.None?
    ensures r.options.body == Some(RequestBody(s))
  {
    Api.Call("/api/auth/login", Api.Options(Some(Api.Post), None, Some(RequestBody(s))))
  }

  /** Where a signed-in user of the role is sent; nowhere for a role the page does not know. */
  function Destination(role: string): (r: Option<string>)
    ensures r.Some? <==> role == Student || role == Warden || role == Worker
    ensures r.Some? ==> r.value == "/" + role
  {
    if role == Student then Some("/student")
    else if role == Warden then Some("/warden")
    else if role == Worker then Some("/worker")
    else None
  }

  /** `onSubmit` once the login call has settled. */
  function Submit(s: State, reply: Outcome<User>): (r: Step)
    // success: the user is stored first, then at most one navigation, to the role's page
    ensures reply.Ok? ==>
              && r.state == s
              && |r.effects| >= 1 && r.effects[0] == StoreUser(reply.value)
              && (Destination(reply.value.role).Some? ==> r.effects[1..] == [Navigate(Destination(reply.value.role).value)])
              && (Destination(reply.value.role).None? ==> r.effects[1..] == [])
    // failure: the error's message is shown, nothing is stored and nobody moves; the form is kept
    ensures reply.Err? ==> r.effects == [] && r.state == s.(msg := reply.message)
  {
    match reply
    case Err(m) => Step(s.(msg := m), [])
    case Ok(user) =>
      var nav := Destination(user.role);
      Step(s, [StoreUser(user)] + (if nav.Some? then [Navigate(nav.value)] else []))
  }

  /** Every navigation a submit performs comes after the user has been stored. */
  lemma StoreBeforeNavigate(s: State, reply: Outcome<User>)
    ensures var e := Submit(s, reply).effects;
            forall i :: 0 <= i < |e| && e[i].Navigate? ==> 0 < i && e[0].StoreUser?
  {
  }

  /** Switching role keeps the credentials typed under the earlier role, and they are all sent. */
  lemma RoleSwitchKeepsCredentials(s: State, studentId: string, wardenId: string)
    ensures var t := OnChange(SelectRole(OnChange(s, IdFieldName(Student), studentId), Warden), IdFieldName(Warden), wardenId);
            var body := RequestBody(t);
            && body["student_id"] == studentId
            && body["warden_id"] == wardenId
            && ("role" !in s.cred ==> body["role"] == Warden)
  {
  }

  /**
   * A worker whose login is refused with `{"message":"invalid credentials"}` sees exactly
   * that text, and no user is stored and no page is opened.
   */
  lemma RefusedLoginShowsServerMessage(s: State, text: string, parse: string -> Option<Api.Json>)
    requires parse(text) == Some(Api.JObject(map["message" := Api.JString("invalid credentials")]))
    ensures var reply := Api.AsOutcome(Api.Settle(Api.Answered(false, text), parse));
            reply.Err? && Submit(s, Err(reply.message)) == Step(s.(msg := "invalid credentials"), [])
  {
  }
}

=== FILE: seqs.dfy ===
/** Order-preserving selection over sequences, the model of JavaScript's `Array.prototype.filter`. */
module Seqs {

  /** The elements of `s` that satisfy `p`, in their original order. */
  function Filter<T>(p: T -> bool, s: seq<T>): (r: seq<T>)
    ensures |r| <= |s|
    ensures forall i :: 0 <= i < |r| ==> p(r[i])
    ensures forall i :: 0 <= i < |r| ==> r[i] in s
    ensures forall i :: 0 <= i < |s| && p(s[i]) ==> s[i] in r
    decreases |s|
  {
    if s == [] then []
    else if p(s[0]) then [s[0]] + Filter(p, s[1..])
    else Filter(p, s[1..])
  }

  /** `a` can be obtained from `b` by deleting elements, without reordering the rest. */
  predicate IsSubsequence<T(==)>(a: seq<T>, b: seq<T>)
    decreases |b|
  {
    if a == [] then true
    else if b == [] then false
    else (a[0] == b[0] && IsSubsequence(a[1..], b[1..])) || IsSubsequence(a, b[1..])
  }

  /** A filter keeps the surviving elements in their original relative order. */
  lemma {:induction false} FilterIsSubsequence<T>(p: T -> bool, s: seq<T>)
    ensures IsSubsequence(Filter(p, s), s)
    decreases |s|
  {
    if s != [] {
      FilterIsSubsequence(p, s[1..]);
      var rest := Filter(p, s[1..]);
      if p(s[0]) {
        assert Filter(p, s) == [s[0]] + rest;
        assert ([s[0]] + rest)[1..] == rest;
      } else {
        assert Filter(p, s) == rest;
        if rest != [] {
          assert IsSubsequence(rest, s[1..]);
        }
      }
    }
  }

  /** A filter keeps every occurrence of a satisfying element and no occurrence of any other. */
  lemma {:induction false} FilterCounts<T(!new)>(p: T -> bool, s: seq<T>)
    ensures forall x :: multiset(Filter(p, s))[x] == (if p(x) then multiset(s)[x] else 0)
    decreases |s|
  {
    if s != [] {
      FilterCounts(p, s[1..]);
      assert s == [s[0]] + s[1..];
      assert multiset(s) == multiset([s[0]]) + multiset(s[1..]);
      if p(s[0]) {
        assert multiset(Filter(p, s)) == multiset([s[0]]) + multiset(Filter(p, s[1..]));
      }
    }
  }

  /** A filter whose predicate holds of every element returns the sequence itself. */
  lemma {:induction false} FilterAllKept<T>(p: T -> bool, s: seq<T>)
    requires forall i :: 0 <= i < |s| ==> p(s[i])
    ensures Filter(p, s) == s
    decreases |s|
  {
    if s != [] {
      FilterAllKept(p, s[1..]);
      assert [s[0]] + s[1..] == s;
    }
  }
}

=== FILE: session.dfy ===
/** The signed-in user as the session store hands it to the pages. */
module Session {

  /** The fields of the stored user that the pages read. */
  datatype User = User(id: string, role: string)

  /** The three roles the client knows. */
  const Student := "student"
  const Warden := "warden"
  const Worker := "worker"
}

=== FILE: student_dashboard.dfy ===
/**
 * The student dashboard: the student's own complaint list and the create / edit /
 * delete form. Every handler is one atomic step from the page state and the awaited
 * outcome of its request to the next page state; the request it issues, if any, is
 * given by the matching `...Call` function.
 */
module StudentDashboard {
  import opened Common
  import opened Complaints
  import opened Session
  import Api
  import Seqs
  import Text

  /** The create / edit form. */
  datatype Form = Form(description: string, category: string, image: string)

  /** The form on first render and after every reset. */
  const DefaultForm := Form("", "plumbing", "")

  /** The two form controls that report changes through `onChange`. */
  datatype FormField = DescriptionField | CategoryField

  /** The page state: the list, the form, the complaint being edited and the error line. */
  datatype State = State(complaints: seq<Complaint>, form: Form, editing: Option<Complaint>, error: string)

  const DescriptionRequired := "Description is required"
  const SubmitFailed := "Failed to submit complaint"
  const UpdateFailed := "Failed to update complaint"
  const DeleteFailed := "Failed to delete complaint"

  /** The request `loadComplaints` makes: none without a signed-in user. */
  function LoadCall(user: Option<User>): (r: Option<Api.Call>)
    ensures r.Some? <==> user.Some?
    ensures r.Some? ==> r.value.options == Api.NoOptions
    ensures r.Some? ==> r.value.path == "/api/complaints/student/" + user.value.id
  {
    if user.None? then None else Some(Api.Call("/api/complaints/student/" + user.value.id, Api.NoOptions))
  }

  /** `loadComplaints`: an array reply becomes the list, anything else empties it; without a user nothing happens. */
  function Load(s: State, user: Option<User>, reply: Outcome<Listing>): (r: State)
    ensures user.None? ==> r == s
    ensures user.Some? && reply.Ok? && reply.value.ComplaintArray? ==> r.complaints == reply.value.items
    ensures user.Some? && (reply.Err? || reply.value.NotAnArray?) ==> r.complaints == []
    ensures r.form == s.form && r.editing == s.editing && r.error == s.error
  {
    if user.None? then s else s.(complaints := Loaded(reply))
  }

  /** A load depends only on its reply, not on the list shown before, so reloading with the same reply changes nothing. */
  lemma LoadForgetsOldList(s: State, t: State, user: User, reply: Outcome<Listing>)
    requires s.form == t.form && s.editing == t.editing && s.error == t.error
    ensures Load(s, Some(user), reply) == Load(t, Some(user), reply)
    ensures Load(Load(s, Some(user), reply), Some(user), reply) == Load(s, Some(user), reply)
  {
  }

  /** `onChange`: the named control's field takes the new value. */
  function OnChange(s: State, field: FormField, value: string): (r: State)
    ensures field == DescriptionField ==> r.form.description == value && r.form.category == s.form.category
    ensures field == CategoryField ==> r.form.category == value && r.form.description == s.form.description
    ensures r.form.image == s.form.image
    ensures r.complaints == s.complaints && r.editing == s.editing && r.error == s.error
  {
    match field
    case DescriptionField => s.(form := s.form.(description := value))
    case CategoryField => s.(form := s.form.(category := value))
  }

  /**
   * The request `createComplaint` makes. None for a blank description (rejected locally)
   * and none without a user, where reading `user.id` throws before the call.
   */
  function CreateCall(s: State, user: Option<User>): (r: Option<Api.Call>)
    ensures r.Some? <==> !Text.IsBlank(s.form.description) && user.Some?
    ensures r.Some? ==> r.value.path == "/api/complaints" && r.value.options.verb == Some(Api.Post)
    ensures r.Some? ==> r.value.options.headers.None?
    ensures r.Some? ==> r.value.options.body == Some(map[
              "student_id" := user.value.id,
              "description" := s.form.description,
              "category" := s.form.category,
              "image" := s.form.image])
  {
    if Text.IsBlank(s.form.description) || user.None? then None
    else
      Some(Api.Call("/api/complaints", Api.Options(Some(Api.Post), None, Some(map[
        "student_id" := user.value.id,
        "description" := s.form.description,
        "category" := s.form.category,
        "image" := s.form.image]))))
  }

  /** `createComplaint`: validate, then prepend the server's record and reset the form, or report failure. */
  function Create(s: State, user: Option<User>, reply: Outcome<Complaint>): (r: State)
    // a blank description never reaches the backend and changes only the error line
    ensures Text.IsBlank(s.form.description) ==> r == s.(error := DescriptionRequired)
    // a failure, including the missing-user one, reports the fixed message and keeps list and form
    ensures !Text.IsBlank(s.form.description) && (user.None? || reply.Err?) ==>
              r == s.(error := SubmitFailed)
    // success puts the server's record alone at the head, in front of the old list
    ensures CreateCall(s, user).Some? && reply.Ok? ==>
              && |r.complaints| == |s.complaints| + 1
              && r.complaints[0] == reply.value
              && r.complaints[1..] == s.complaints
              && r.form == DefaultForm && r.error == "" && r.editing == s.editing
  {
    if Text.IsBlank(s.form.description) then s.(error := DescriptionRequired)
    else if user.None? then s.(error := SubmitFailed)
    else
      match reply
      case Err(_) => s.(error := SubmitFailed)
      case Ok(data) => s.(complaints := [data] + s.complaints, form := DefaultForm, error := "")
  }

  /**
   * `startEdit`: enter edit mode for `c`, copying its text fields and a missing image as
   * the empty string. `c.image || ''` also maps an image of `""` to `""`, so `GetOr("")`
   * agrees with it because the default is the empty string.
   */
  function StartEdit(s: State, c: Complaint): (r: State)
    ensures r.editing == Some(c)
    ensures r.form.description == c.description && r.form.category == c.category
    ensures c.image.Some? ==> r.form.image == c.image.value
    ensures c.image.None? ==> r.form.image == ""
    ensures r.complaints == s.complaints && r.error == s.error
  {
    s.(editing := Some(c), form := Form(c.description, c.category, c.image.GetOr("")))
  }

  /** The request `updateComplaint` makes; none when nothing is being edited, where `editing.id` throws. */
  function UpdateCall(s: State): (r: Option<Api.Call>)
    ensures r.Some? <==> s.editing.Some?
    ensures r.Some? ==> r.value.path == "/api/complaints/" + s.editing.value.id && r.value.options.verb == Some(Api.Put)
    ensures r.Some? ==> r.value.options.headers.None?
    ensures r.Some? ==> r.value.options.body == Some(map[
              "description" := s.form.description,
              "category" := s.form.category,
              "image" := s.form.image])
  {
    match s.editing
    case None => None
    case Some(c) =>
      Some(Api.Call("/api/complaints/" + c.id, Api.Options(Some(Api.Put), None, Some(map[
        "description" := s.form.description,
        "category" := s.form.category,
        "image" := s.form.image]))))
  }

  /** `updateComplaint`: swap in the server's record by id and leave edit mode, or report failure. */
  function Update(s: State, reply: Outcome<Complaint>): (r: State)
    ensures s.editing.None? || reply.Err? ==> r == s.(error := UpdateFailed)
    ensures s.editing.Some? && reply.Ok? ==>
              && |r.complaints| == |s.complaints|
              && (forall i :: 0 <= i < |s.complaints| && s.complaints[i].id == reply.value.id ==> r.complaints[i] == reply.value)
              && (forall i :: 0 <= i < |s.complaints| && s.complaints[i].id != reply.value.id ==> r.complaints[i] == s.complaints[i])
              && r.editing.None? && r.form == DefaultForm && r.error == s.error
  {
    if s.editing.None? then s.(error := UpdateFailed)
    else
      match reply
      case Err(_) => s.(error := UpdateFailed)
      case Ok(data) => s.(complaints := ReplaceById(s.complaints, data), editing := None, form := DefaultForm)
  }

  /** The request `deleteComplaint` makes; none when the confirmation is declined. */
  function DeleteCall(id: Id, confirmed: bool): (r: Option<Api.Call>)
    ensures r.Some? <==> confirmed
    ensures r.Some? ==> r.value == Api.Call("/api/complaints/" + id, Api.Options(Some(Api.Delete), None, None))
  {
    if confirmed then Some(Api.Call("/api/complaints/" + id, Api.Options(Some(Api.Delete), None, None))) else None
  }

  /** `deleteComplaint`: after confirmation, drop every entry with the id, or report failure. */
  function Delete(s: State, id: Id, confirmed: bool, reply: Outcome<()>): (r: State)
    ensures !confirmed ==> r == s
    ensures confirmed && reply.Err? ==> r == s.(error := DeleteFailed)
    ensures confirmed && reply.Ok? ==>
              && id !in Ids(r.complaints)
              && (forall i :: 0 <= i < |s.complaints| && s.complaints[i].id != id ==> s.complaints[i] in r.complaints)
              && (forall i :: 0 <= i < |r.complaints| ==> r.complaints[i] in s.complaints)
              && r.form == s.form && r.editing == s.editing && r.error == s.error
  {
    if !confirmed then s
    else
      match reply
      case Err(_) => s.(error := DeleteFailed)
      case Ok(_) => s.(complaints := RemoveById(s.complaints, id))
  }

  /** `cancelEdit`: leave edit mode with an empty form. */
  function CancelEdit(s: State): (r: State)
    ensures r.editing.None? && r.form == DefaultForm
    ensures r.complaints == s.complaints && r.error == s.error
  {
    s.(editing := None, form := DefaultForm)
  }

  /** The entries rendered with Edit and Delete buttons: the pending ones, in list order. */
  function Actionable(cs: seq<Complaint>): (r: seq<Complaint>)
    ensures forall i :: 0 <= i < |r| ==> r[i].status == Pending && r[i] in cs
    ensures forall i :: 0 <= i < |cs| && cs[i].status == Pending ==> cs[i] in r
  {
    Seqs.Filter((c: Complaint) => c.status == Pending, cs)
  }

  /** The Edit and Delete buttons follow the list order and appear once per pending entry occurrence. */
  lemma ActionableInOrder(cs: seq<Complaint>)
    ensures Seqs.IsSubsequence(Actionable(cs), cs)
    ensures forall c :: multiset(Actionable(cs))[c] == (if c.status == Pending then multiset(cs)[c] else 0)
  {
    Seqs.FilterIsSubsequence((c: Complaint) => c.status == Pending, cs);
    Seqs.FilterCounts((c: Complaint) => c.status == Pending, cs);
  }

  /** Every way of finishing an edit or a create successfully leaves the default form behind. */
  lemma FormResets(s: State, user: Option<User>, data: Complaint)
    ensures CreateCall(s, user).Some? ==> Create(s, user, Ok(data)).form == DefaultForm
    ensures s.editing.Some? ==> Update(s, Ok(data)).form == DefaultForm
    ensures CancelEdit(s).form == DefaultForm
  {
  }

  /**
   * Editing an entry and submitting without touching the form sends that entry's own
   * fields back to that entry's URL.
   */
  lemma EditRoundTrip(s: State, c: Complaint)
    ensures UpdateCall(StartEdit(s, c)) == Some(Api.Call("/api/complaints/" + c.id, Api.Options(Some(Api.Put), None, Some(map[
              "description" := c.description,
              "category" := c.category,
              "image" := c.image.GetOr("")]))))
  {
  }

  /** Creating and updating pass no headers of their own, so both requests go out with the JSON content type. */
  lemma WritesSendJson(s: State, user: Option<User>, base: string)
    ensures CreateCall(s, user).Some? ==>
              Api.Request(base, CreateCall(s, user).value.path, CreateCall(s, user).value.options).headers["Content-Type"] == "application/json"
    ensures UpdateCall(s).Some? ==>
              Api.Request(base, UpdateCall(s).value.path, UpdateCall(s).value.options).headers["Content-Type"] == "application/json"
  {
  }

  /** A successful update keeps the ids of the list in order: the edit never adds, drops or moves entries. */
  lemma UpdateKeepsIds(s: State, data: Complaint)
    requires s.editing.Some?
    ensures Ids(Update(s, Ok(data)).complaints) == Ids(s.complaints)
  {
  }

  /** A successful delete keeps the other entries, each as often as before, in their relative order. */
  lemma DeleteKeepsOthersInOrder(s: State, id: Id)
    ensures var r := Delete(s, id, true, Ok(()));
            && Seqs.IsSubsequence(r.complaints, s.complaints)
            && forall c :: multiset(r.complaints)[c] == (if c.id == id then 0 else multiset(s.complaints)[c])
  {
    RemoveKeepsOthersInOrder(s.complaints, id);
  }

  /** Blank descriptions are exactly the all-white-space ones, and they never produce a request. */
  lemma BlankCreateRejected(s: State, user: Option<User>, reply: Outcome<Complaint>)
    requires forall i :: 0 <= i < |s.form.description| ==> Text.IsJsWhitespace(s.form.description[i])
    ensures CreateCall(s, user).None?
    ensures Create(s, user, reply).complaints == s.complaints
    ensures Create(s, user, reply).error == DescriptionRequired
  {
    Text.BlankIffAllWhitespace(s.form.description);
  }
}

=== FILE: text.dfy ===
/** `String.prototype.trim` and the whitespace it removes. */
module Text {

  /** The characters ECMAScript counts as white space or line terminators. */
  predicate IsJsWhitespace(c: char) {
    || c == '\t' || c == '\n' || c == '\U{000B}' || c == '\U{000C}' || c == '\r' || c == ' '
    || c == '\U{00A0}' || c == '\U{1680}' || ('\U{2000}' <= c <= '\U{200A}')
    || c == '\U{2028}' || c == '\U{2029}' || c == '\U{202F}' || c == '\U{205F}'
    || c == '\U{3000}' || c == '\U{FEFF}'
  }

  /** `s` without its leading white space. */
  function TrimStart(s: string): (r: string)
    ensures |r| <= |s| && r == s[|s| - |r|..]
    ensures forall i :: 0 <= i < |s| - |r| ==> IsJsWhitespace(s[i])
    ensures r == [] || !IsJsWhitespace(r[0])
    decreases |s|
  {
    if s != [] && IsJsWhitespace(s[0]) then TrimStart(s[1..]) else s
  }

  /** `s` without its trailing white space. */
  function TrimEnd(s: string): (r: string)
    ensures |r| <= |s| && r == s[..|r|]
    ensures forall i :: |r| <= i < |s| ==> IsJsWhitespace(s[i])
    ensures r == [] || !IsJsWhitespace(r[|r| - 1])
    decreases |s|
  {
    if s != [] && IsJsWhitespace(s[|s| - 1]) then TrimEnd(s[..|s| - 1]) else s
  }

  /** `s` is `r` at offset `i` with only white space before and after it. */
  predicate PaddedAt(s: string, r: string, i: nat) {
    && i + |r| <= |s| && r == s[i..i + |r|]
    && (forall k :: 0 <= k < i ==> IsJsWhitespace(s[k]))
    && (forall k :: i + |r| <= k < |s| ==> IsJsWhitespace(s[k]))
  }

  /** `s.trim()`: the middle of `s` between leading and trailing white space. */
  function Trim(s: string): (r: string)
    ensures exists i :: PaddedAt(s, r, i)
    ensures r == [] || (!IsJsWhitespace(r[0]) && !IsJsWhitespace(r[|r| - 1]))
  {
    TrimmedIsPadded(s);
    TrimEnd(TrimStart(s))
  }

  /** The pieces `TrimStart` and `TrimEnd` drop are the white space around the trimmed middle. */
  lemma TrimmedIsPadded(s: string)
    ensures PaddedAt(s, TrimEnd(TrimStart(s)), |s| - |TrimStart(s)|)
    ensures exists i :: PaddedAt(s, TrimEnd(TrimStart(s)), i)
    ensures var r := TrimEnd(TrimStart(s)); r == [] || (!IsJsWhitespace(r[0]) && !IsJsWhitespace(r[|r| - 1]))
  {
    var t := TrimStart(s);
    var r := TrimEnd(t);
    PaddedCompose(s, t, r);
    assert r != [] ==> r[0] == t[0];
  }

  /** Dropping white space from the front and then from the back leaves a padded middle. */
  lemma PaddedCompose(s: string, t: string, r: string)
    requires |t| <= |s| && t == s[|s| - |t|..]
    requires forall k :: 0 <= k < |s| - |t| ==> IsJsWhitespace(s[k])
    requires |r| <= |t| && r == t[..|r|]
    requires forall k :: |r| <= k < |t| ==> IsJsWhitespace(t[k])
    ensures PaddedAt(s, r, |s| - |t|)
  {
    var i := |s| - |t|;
    assert forall k :: i + |r| <= k < |s| ==> s[k] == t[k - i];
  }

  /** `!s.trim()`: the string is empty once trimmed. */
  predicate IsBlank(s: string) {
    Trim(s) == ""
  }

  /** A string is blank exactly when every one of its characters is white space. */
  lemma BlankIffAllWhitespace(s: string)
    ensures IsBlank(s) <==> forall i :: 0 <= i < |s| ==> IsJsWhitespace(s[i])
  {
    var t := TrimStart(s);
    assert t != [] ==> t[0] == s[|s| - |t|];
  }
}

=== FILE: worker_dashboard.dfy ===
/**
 * The worker dashboard: the full complaint list, the three views derived from it on
 * every render, and the claim / complete status change.
 */
module WorkerDashboard {
  import opened Common
  import opened Complaints
  import opened Session
  import Api
  import Seqs

  /** The page state: the loaded list. */
  datatype State = State(complaints: seq<Complaint>)

  /** `user?.id`: the signed-in worker's id, absent without a user. */
  function Me(user: Option<User>): (r: Option<Id>)
    ensures r.None? <==> user.None?
    ensures user.Some? ==> r.value == user.value.id
  {
    if user.Some? then Some(user.value.id) else None
  }

  /** The request `loadAssignedComplaints` makes: none without a signed-in user. */
  function LoadCall(user: Option<User>): (r: Option<Api.Call>)
    ensures r.Some? <==> user.Some?
    ensures r.Some? ==> r.value == Api.Call("/api/complaints/all", Api.NoOptions)
  {
    if user.None? then None else Some(Api.Call("/api/complaints/all", Api.NoOptions))
  }

  /** `loadAssignedComplaints`: an array reply becomes the list, anything else empties it; without a user nothing happens. */
  function Load(s: State, user: Option<User>, reply: Outcome<Listing>): (r: State)
    ensures user.None? ==> r == s
    ensures user.Some? && reply.Ok? && reply.value.ComplaintArray? ==> r.complaints == reply.value.items
    ensures user.Some? && (reply.Err? || reply.value.NotAnArray?) ==> r.complaints == []
  {
    if user.None? then s else State(Loaded(reply))
  }

  /** Reloading with the same reply gives the same list: a load depends only on its reply, not on the old list. */
  lemma LoadForgetsOldList(s: State, t: State, user: User, reply: Outcome<Listing>)
    ensures Load(s, Some(user), reply) == Load(t, Some(user), reply)
    ensures Load(Load(s, Some(user), reply), Some(user), reply) == Load(s, Some(user), reply)
  {
  }

  /** Open work: accepted and not yet assigned. */
  predicate IsAvailable(c: Complaint) {
    c.status == Accepted && Unassigned(c)
  }

  /** `c.status === status && c.assigned_worker_id === user?.id`. */
  predicate IsMine(c: Complaint, status: string, me: Option<Id>) {
    c.status == status && c.assignedWorkerId == me
  }

  /** `availableComplaints`. */
  function Available(cs: seq<Complaint>): (r: seq<Complaint>)
    ensures forall i :: 0 <= i < |r| ==> r[i].status == Accepted && Unassigned(r[i]) && r[i] in cs
    ensures forall i :: 0 <= i < |cs| && cs[i].status == Accepted && Unassigned(cs[i]) ==> cs[i] in r
  {
    Seqs.Filter((c: Complaint) => IsAvailable(c), cs)
  }

  /** `myInProgressComplaints`. */
  function MyInProgress(cs: seq<Complaint>, user: Option<User>): (r: seq<Complaint>)
    ensures forall i :: 0 <= i < |r| ==> r[i].status == InProgress && r[i].assignedWorkerId == Me(user) && r[i] in cs
    ensures forall i :: 0 <= i < |cs| && cs[i].status == InProgress && cs[i].assignedWorkerId == Me(user) ==> cs[i] in r
  {
    Seqs.Filter((c: Complaint) => IsMine(c, InProgress, Me(user)), cs)
  }

  /** `myCompletedComplaints`. */
  function MyCompleted(cs: seq<Complaint>, user: Option<User>): (r: seq<Complaint>)
    ensures forall i :: 0 <= i < |r| ==> r[i].status == Completed && r[i].assignedWorkerId == Me(user) && r[i] in cs
    ensures forall i :: 0 <= i < |cs| && cs[i].status == Completed && cs[i].assignedWorkerId == Me(user) ==> cs[i] in r
  {
    Seqs.Filter((c: Complaint) => IsMine(c, Completed, Me(user)), cs)
  }

  /** Each view keeps its entries in list order, and keeps every qualifying entry as often as it occurs. */
  lemma ViewsAreExactSubsequences(cs: seq<Complaint>, user: Option<User>)
    ensures Seqs.IsSubsequence(Available(cs), cs)
    ensures Seqs.IsSubsequence(MyInProgress(cs, user), cs)
    ensures Seqs.IsSubsequence(MyCompleted(cs, user), cs)
    ensures forall c :: multiset(Available(cs))[c] == (if IsAvailable(c) then multiset(cs)[c] else 0)
    ensures forall c :: multiset(MyInProgress(cs, user))[c] == (if IsMine(c, InProgress, Me(user)) then multiset(cs)[c] else 0)
    ensures forall c :: multiset(MyCompleted(cs, user))[c] == (if IsMine(c, Completed, Me(user)) then multiset(cs)[c] else 0)
  {
    Seqs.FilterIsSubsequence((c: Complaint) => IsAvailable(c), cs);
    Seqs.FilterIsSubsequence((c: Complaint) => IsMine(c, InProgress, Me(user)), cs);
    Seqs.FilterIsSubsequence((c: Complaint) => IsMine(c, Completed, Me(user)), cs);
    Seqs.FilterCounts((c: Complaint) => IsAvailable(c), cs);
    Seqs.FilterCounts((c: Complaint) => IsMine(c, InProgress, Me(user)), cs);
    Seqs.FilterCounts((c: Complaint) => IsMine(c, Completed, Me(user)), cs);
  }

  /** No complaint shows up in two of the three views. */
  lemma ViewsDisjoint(cs: seq<Complaint>, user: Option<User>)
    ensures forall c :: c in Available(cs) ==> c !in MyInProgress(cs, user) && c !in MyCompleted(cs, user)
    ensures forall c :: c in MyInProgress(cs, user) ==> c !in MyCompleted(cs, user)
  {
  }

  /** A complaint held by another worker appears in neither of the signed-in worker's own views. */
  lemma OthersWorkExcluded(cs: seq<Complaint>, user: User, c: Complaint)
    requires c.assignedWorkerId.Some? && c.assignedWorkerId.value != user.id
    ensures c !in MyInProgress(cs, Some(user)) && c !in MyCompleted(cs, Some(user))
  {
  }

  /** `complaints.find(c => c.id === id)`: the first entry with the id, if any. */
  function Find(cs: seq<Complaint>, id: Id): (r: Option<Complaint>)
    ensures r.None? <==> forall k :: 0 <= k < |cs| ==> cs[k].id != id
    ensures r.Some? ==> r.value.id == id && r.value in cs
    decreases |cs|
  {
    if cs == [] then None
    else if cs[0].id == id then Some(cs[0])
    else Find(cs[1..], id)
  }

  /** `find` lands on the first entry carrying the id, not on a later duplicate. */
  lemma {:induction false} FindIsFirst(cs: seq<Complaint>, i: nat)
    requires i < |cs|
    requires forall k :: 0 <= k < i ==> cs[k].id != cs[i].id
    ensures Find(cs, cs[i].id) == Some(cs[i])
    decreases i
  {
    if i > 0 {
      assert cs[1..][i - 1] == cs[i];
      FindIsFirst(cs[1..], i - 1);
    }
  }

  /** Whether a status change claims the complaint: moving to in-progress while the entry found by id is unassigned. */
  predicate Claims(cs: seq<Complaint>, id: Id, status: string) {
    status == InProgress && (Find(cs, id).None? || Unassigned(Find(cs, id).value))
  }

  /**
   * A status change claims exactly when it moves to in-progress and either no entry has
   * the id or the first entry with the id is unassigned.
   */
  lemma ClaimsIff(cs: seq<Complaint>, id: Id, status: string)
    ensures (forall k :: 0 <= k < |cs| ==> cs[k].id != id) ==> (Claims(cs, id, status) <==> status == InProgress)
    ensures forall i :: 0 <= i < |cs| && cs[i].id == id && (forall k :: 0 <= k < i ==> cs[k].id != id) ==>
              (Claims(cs, id, status) <==> status == InProgress && Unassigned(cs[i]))
  {
    forall i | 0 <= i < |cs| && cs[i].id == id && (forall k :: 0 <= k < i ==> cs[k].id != id)
      ensures Claims(cs, id, status) <==> status == InProgress && Unassigned(cs[i])
    {
      FindIsFirst(cs, i);
    }
  }

  /**
   * The PATCH body `updateStatus` sends: the status, plus the worker's id when claiming.
   * None when claiming without a user, where reading `user.id` throws before the call.
   */
  function StatusBody(cs: seq<Complaint>, id: Id, status: string, user: Option<User>): (r: Option<map<string, string>>)
    ensures r.None? <==> Claims(cs, id, status) && user.None?
    ensures r.Some? ==> "status" in r.value && r.value["status"] == status
    ensures r.Some? ==> r.value.Keys <= {"status", "assigned_worker_id"}
    ensures r.Some? && "assigned_worker_id" in r.value ==> user.Some? && r.value["assigned_worker_id"] == user.value.id
  {
    if !Claims(cs, id, status) then Some(map["status" := status])
    else if user.None? then None
    else Some(map["status" := status, "assigned_worker_id" := user.value.id])
  }

  /** The request `updateStatus` makes. */
  function StatusCall(cs: seq<Complaint>, id: Id, status: string, user: Option<User>): (r: Option<Api.Call>)
    ensures r.Some? <==> StatusBody(cs, id, status, user).Some?
    ensures r.Some? ==> r.value.path == "/api/complaints/" + id + "/status" && r.value.options.verb == Some(Api.Patch)
    ensures r.Some? ==> r.value.options.headers.None?
    ensures r.Some? ==> r.value.options.body == StatusBody(cs, id, status, user)
  {
    var body := StatusBody(cs, id, status, user);
    if body.None? then None
    else Some(Api.Call("/api/complaints/" + id + "/status", Api.Options(Some(Api.Patch), None, body)))
  }

  /** `updateStatus`: swap in the server's record by id on success; any failure changes nothing. */
  function UpdateStatus(s: State, id: Id, status: string, user: Option<User>, reply: Outcome<Complaint>): (r: State)
    ensures StatusBody(s.complaints, id, status, user).None? || reply.Err? ==> r == s
    ensures StatusBody(s.complaints, id, status, user).Some? && reply.Ok? ==>
              && |r.complaints| == |s.complaints|
              && (forall i :: 0 <= i < |s.complaints| && s.complaints[i].id == reply.value.id ==> r.complaints[i] == reply.value)
              && (forall i :: 0 <= i < |s.complaints| && s.complaints[i].id != reply.value.id ==> r.complaints[i] == s.complaints[i])
  {
    if StatusBody(s.complaints, id, status, user).None? then s
    else
      match reply
      case Err(_) => s
      case Ok(data) => State(ReplaceById(s.complaints, data))
  }

  /**
   * The body names a worker exactly when the change moves to in-progress and the
   * complaint found by id has no worker; it is then the signed-in worker.
   */
  lemma AssignOnlyOnClaim(cs: seq<Complaint>, id: Id, status: string, user: User)
    ensures var body := StatusBody(cs, id, status, Some(user));
            && body.Some?
            && ("assigned_worker_id" in body.value <==> status == InProgress && (Find(cs, id).None? || Unassigned(Find(cs, id).value)))
            && ("assigned_worker_id" in body.value ==> body.value["assigned_worker_id"] == user.id)
  {
  }

  /** Marking complete never sends a worker id. */
  lemma CompleteNeverAssigns(cs: seq<Complaint>, id: Id, user: Option<User>)
    ensures StatusBody(cs, id, Completed, user) == Some(map["status" := Completed])
  {
  }

  /** A complaint that already has a worker keeps it: the body is the status alone. */
  lemma ExistingAssignmentKept(cs: seq<Complaint>, i: nat, status: string, user: Option<User>)
    requires i < |cs| && !Unassigned(cs[i])
    requires forall k :: 0 <= k < i ==> cs[k].id != cs[i].id
    ensures StatusBody(cs, cs[i].id, status, user) == Some(map["status" := status])
  {
    FindIsFirst(cs, i);
  }

  /** A status change passes no headers of its own, so it goes out with the JSON content type. */
  lemma StatusSendsJson(cs: seq<Complaint>, id: Id, status: string, user: Option<User>, base: string)
    ensures var call := StatusCall(cs, id, status, user);
            call.Some? ==> Api.Request(base, call.value.path, call.value.options).headers["Content-Type"] == "application/json"
  {
  }

  /** Taking an available job sends the new status together with the worker's own id. */
  lemma ClaimAvailable(cs: seq<Complaint>, i: nat, user: User)
    requires i < |cs| && IsAvailable(cs[i])
    requires forall k :: 0 <= k < i ==> cs[k].id != cs[i].id
    ensures StatusBody(cs, cs[i].id, InProgress, Some(user)) == Some(map["status" := InProgress, "assigned_worker_id" := user.id])
  {
    FindIsFirst(cs, i);
  }
}
